=== FILE: README.md ===
# go-kenall client core, modelled in Dafny

go-kenall is a Go client for the kenall service, which looks up Japanese
addresses by postal code, cities by prefecture code and corporations by
corporate number. This project models the client's logic that decides
things; it leaves out the plumbing that only moves bytes. The modelled parts
are:

- **Client construction.** `NewClient` checks the token, then applies the
  `WithHTTPClient` and `WithEndpoint` options in order.
- **Lookup checks and URLs.** `GetAddress`, `GetCity` and `GetCorporation`
  each check their code with `strconv.Atoi` plus a length test; `GetWhoami`
  takes no code. Each then builds its GET URL.
- **Response classification.** `sendRequest` adds the `Authorization` header
  and turns the transport's outcome into a decoded body or an error kind.
- **Hand-written JSON decoders and encoder** in types.go: `Version`,
  `NullString`, `RemoteAddress` and `Holiday`. `Version` and `Holiday` rest
  on the `"2006-01-02"` date layout, which is the full-date of section 5.6 of
  RFC 3339. Its checks are:
  - month in 1..12;
  - day limited by the month's length, per section 5.7 of RFC 3339;
  - Gregorian leap years, per Appendix C of RFC 3339.

  The holiday encoder derives the weekday. The model computes it by counting
  days from 0001-01-01, which is a Monday. It is proved equal, for every
  date, to the day-of-week formula in Appendix B of RFC 3339 computed with
  floor division. From year 1 on, that agrees with the C code printed there.

The package exists in two revisions. client.go is the current one; kenall.go
is older and has only the address and city lookups. Their decision logic is
the same (`NewClient` at kenall.go:48-64, the lookups at kenall.go:67-106,
`sendRequest` at kenall.go:109-148), and one model covers both; the table
below cites whichever revision reads more directly. The only difference
between them is the order of draining and closing the response body, which
is not modelled.

Modules:

| module | file | contents |
|---|---|---|
| `Results` | results.dfy | `Option`, `Result` |
| `Numeric` | numeric.dfy | `strconv.Atoi`, `ParseInt`, decimal rendering, zero-padded `appendInt` |
| `Calendar` | calendar.dfy | leap years, month lengths, day numbers, weekday, RFC 3339 Appendix B formula |
| `DateFormat` | dateformat.dfy | parsing and formatting with layout `2006-01-02` |
| `Json` | json.dfy | a tokenised JSON value; how encoding/json fills `string` and `int` fields |
| `Errors` | errors.dfy | the sentinels, timeout/transport/status/decode errors, `%w` wrapping, `errors.Is` |
| `Config`, `Options` | config.dfy, options.dfy | the client record, its default endpoint, the options |
| `Types` | types.dfy | `Version`, `NullString`, `RemoteAddress`, `Holiday` |
| `Kenall` | kenall.dfy | `NewClient`, `sendRequest`, the four lookups |

A Go decoder method may change its receiver even when it fails, so each
decoder is modelled as a function. It takes the receiver's current value
and the input, and returns the new value together with the error, if any.

The outside world enters as parameters:

- whether `http.NewRequestWithContext` fails, which happens for a nil context
  or a bad URL;
- the transport's outcome, either a cause or a status and body;
- how the 200 body decodes into the response struct;
- what `net.ResolveIPAddr` returns.

## Model

| member | source | states |
|---|---|---|
| `Kenall.NewClient` | client.go:37-53 | fails with the invalid-argument sentinel exactly when the token is empty; otherwise keeps the token, and the endpoint and HTTP client are those of the last option of each kind, defaulting to `https://api.kenall.jp/v1` and the default client |
| `Kenall.NewClientExamples` | client_test.go:43-45 | an empty token fails; no options leave the service endpoint; with three options the last endpoint and the client option both apply |
| `Options.Apply` | options.go:15-22 | a client option replaces the HTTP client and nothing else; an endpoint option replaces the endpoint and nothing else; the token is never touched |
| `Options.ApplyAll` | client.go:48-50 | applying options never touches the token; a field that no option names keeps its value; the last option, whatever its kind, decides its own field |
| `Options.ApplyAllSnoc` | kenall.go:59-61 | applying a sequence of options and then one more is the same as applying the longer sequence |
| `Options.LastOptionWins` | client.go:48-50 | after applying options left to right, each field holds the value of the rightmost option for it, or its old value if no option names it; the token is unchanged |
| `Options.NilAndEmptyOptions` | options.go:25-32 | options built for a nil client or an empty endpoint exist and, when applied, store exactly that value |
| `Kenall.Classify` | client.go:59-93 | the body is decoded exactly when the transport answered with status 200 |
| `Kenall.ClassifyMatchesSentinelStatus` | client.go:73-90 | a status gives a sentinel exactly when that sentinel's message in errors.go names the status (401, 402, 403, 404, 405, 500) |
| `Kenall.ClassifyUnregistered` | kenall.go:126-145 | a status gives the error carrying the status exactly when it is not 200 and no sentinel names it |
| `Kenall.ClassifyTransport` | kenall.go:112-119 | a transport failure is a timeout error keeping its cause exactly when the cause is a deadline exceeded or a timeout, and a plain transport error otherwise |
| `Kenall.SendRequest` | client.go:56-96 | the request handed over keeps its URL and method and carries `Authorization: token <token>`; the call succeeds exactly when the status is 200 and the body decodes, and then returns the decoded body; a refused outcome returns exactly the error the classification gives, and an undecodable 200 body a decode error carrying the decoder's reason |
| `Kenall.BodyDecodedOnlyOn200` | client.go:73-77 | when the status is not 200 the result does not depend on the body decoder; on 200 a successful decode is the result |
| `Kenall.ValidCodeAgrees` | client.go:106-108 | for codes under 19 bytes on a 64-bit platform, and under 10 bytes on a 32-bit one, the validation "Atoi succeeds and the length is n" holds exactly for strings of length n matching `[+-]?[0-9]+` |
| `Kenall.CorporateNumberRejectedOn32Bit` | client.go:161-163 | "2021001052596" is a well-formed 13-digit corporate number that the validation as written refuses when Go's int is 32 bits wide |
| `Kenall.ValidCodeExamples` | client_test.go:97 | "+123456" and "1008105" are postal codes and "-1" a prefecture code; "alphabet", "123456", "a1", "+" and "+-1" are refused |
| `Kenall.Dispatch` | client.go:112-120 | if the request cannot be built, nothing is handed over and the builder's error is returned under the generate context; otherwise a GET for exactly the URL is handed over, carrying the authorization header, and then, if the service answered 200 with a body that decodes, the result is the decoded body; otherwise it is the error `sendRequest` classified, or the decode failure, wrapped with the send context |
| `Kenall.Lookup` | client.go:105-123 | an invalid code gives exactly the invalid-argument sentinel and hands nothing over; for a valid code whose request can be built, a GET of `endpoint + path + code` carrying `Authorization: token <token>` is handed over, and then, if the service answered 200 with a body that decodes, the result is the decoded body; otherwise it is the error `sendRequest` classified, or the decode failure, wrapped with the send context; when the request cannot be built, nothing is handed over and the error is not the invalid-argument sentinel |
| `Kenall.GetAddress` | client.go:105-123 | a code that is not 7 bytes of `[+-]?[0-9]+` gives the invalid-argument sentinel and builds no request; otherwise, when the request can be built, it is GET `endpoint + "/postalcode/" + code` carrying `Authorization: token <token>`, and then, if the service answered 200 with a body that decodes, the result is the decoded body; otherwise it is the error `sendRequest` classified, or the decode failure, wrapped with the send context |
| `Kenall.GetCity` | client.go:132-150 | the same with 2 bytes and `"/cities/"`, including the decoded response on 200 and the wrapped classified error otherwise |
| `Kenall.GetCorporation` | client.go:160-178 | the same with 13 bytes and `"/houjinbangou/"`, including the decoded response on 200 and the wrapped classified error otherwise |
| `Kenall.GetWhoami` | client.go:186-200 | no argument check; unless the request cannot be built, it is GET `endpoint + "/whoami"` carrying `Authorization: token <token>`, and then, if the service answered 200 with a body that decodes, the result is the decoded body; otherwise it is the error `sendRequest` classified, or the decode failure, wrapped with the send context |
| `Kenall.LookupRefusesExactlyInvalid` | kenall.go:67-106 | whatever the transport does, `errors.Is(err, ErrInvalidArgument)` holds exactly for an invalid code, and a request is handed over exactly when the code is valid and the request can be built |
| `Kenall.DispatchKeepsSentinel` | client.go:118-120 | after dispatch, the caller's `errors.Is(err, s)` holds exactly when the service answered with the status sentinel `s` names: the sentinel's identity survives the `%w` wrapper |
| `Kenall.DispatchKeepsTimeout` | client.go:59-63 | after dispatch, the error under the wrappers is a timeout with cause `c` exactly when the transport failed with `c` and `c` is a deadline exceeded or a timeout |
| `Kenall.EverySentRequestAuthorized` | client.go:57 | every request that any of the four lookups hands over carries `Authorization: token <token>` |
| `Kenall.StatusExamples` | client_test.go:103-108 | 503 gives an error carrying 503 that matches no sentinel; 500 matches the internal-server-error sentinel; a deadline exceeded gives a timeout |
| `Errors.Unwrapped` | client.go:114-119 | the error under the call-site context wrappers is not itself such a wrapper |
| `Errors.Is` | errors.go:7-21 | `errors.Is(e, sentinel)` holds exactly when the error under all the call-site wrappers is that sentinel |
| `Errors.StatusOfInjective` | errors.go:9-19 | no two sentinels name the same status |
| `Numeric.Atoi` | client.go:106 | a successful `strconv.Atoi` read a string of `[+-]?[0-9]+` and returns its value |
| `Numeric.AtoiAccepts` | client.go:106 | `strconv.Atoi` succeeds exactly on `[+-]?[0-9]+` strings whose value fits the platform's int |
| `Numeric.FastPathFits` | client.go:106 | a string short enough for Atoi's unchecked fast path always fits the platform's int |
| `Numeric.DigitsValueBound` | client.go:106 | k decimal digits denote a number below 10^k |
| `Numeric.DigitsValueLeading` | client.go:161 | k decimal digits denote at least the leading digit times 10^(k-1) |
| `Numeric.AppendIntRoundTrip` | types.go:244 | the 2- and 4-digit zero-padded renderings used for month, day and year are digit strings of exactly that width that read back as the number |
| `Numeric.AppendIntCanonical` | types.go:244 | re-rendering the value of a 2- or 4-digit string gives back the same string |
| `Calendar.DaysBeforeYearClosed` | types.go:245 | the days before year y are 365(y-1) plus the Gregorian leap years below y |
| `Calendar.Weekday` | types.go:245 | the weekday is one of 0 (Sunday) .. 6 (Saturday); `Calendar.WeekdayMatchesRfc` ties it to an independent formula |
| `Calendar.WeekdayMatchesRfc` | types.go:245-246 | for every date, the weekday from counting days since 0001-01-01 (a Monday) equals the Appendix B formula of RFC 3339 computed with floor division, which agrees with the C code printed there from year 1 on |
| `Calendar.KnownWeekdays` | types_test.go:173-174 | 2022-01-01 is a Saturday (6) and 0001-01-01 a Monday (1) |
| `DateFormat.ParseDate` | types.go:159 | an accepted text is `dddd-dd-dd`, a real Gregorian date, with a four-digit year |
| `DateFormat.FormatDate` | types.go:244 | a date whose year has at most four digits and whose month and day at most two is written as `dddd-dd-dd`, and each field reads back as the date's own |
| `DateFormat.ParseFormat` | types.go:230 | formatting a real date with a four-digit year and parsing it gives the date back |
| `DateFormat.FormatParse` | types.go:244 | parsing an accepted text and formatting the result gives the same text |
| `DateFormat.ParseDateExactly` | types.go:230 | a text is accepted exactly when it is the formatting of a real date with a four-digit year |
| `DateFormat.ParseDateAccepted` | types_test.go:19 | "2020-11-30", "2022-01-01" and the leap day "2020-02-29" are accepted |
| `DateFormat.ParseDateRefused` | types_test.go:20 | "20201130", "2022/01/01" and "2021-02-29" (not a leap year) are refused |
| `Json.LastStringAt` | types.go:225 | the index found is a string member with the key, and no later member is one |
| `Json.DecodeStringLastWins` | types.go:225 | a `string` field ends up holding the last string member with its key, or keeps its value when there is none |
| `Json.DecodeStringAt` | types.go:189 | a string member with no later string member of the same key decides the field |
| `Json.DecodeStringAbsent` | types.go:189 | with no string member for the key, the field keeps its value |
| `Types.UnmarshalVersion` | types.go:154-167 | success on anything other than `null` means the text was a quoted real date with a four-digit year, and the value is that date; a failure leaves the receiver unchanged |
| `Types.VersionNull` | types.go:155-157 | `null` succeeds and leaves the receiver unchanged |
| `Types.VersionRoundTrip` | types.go:159-164 | a quoted formatted date decodes to that date, whatever the receiver held |
| `Types.VersionExamples` | types_test.go:19-21 | `"2020-11-30"` decodes to 2020-11-30; `"20201130"` fails and leaves the zero value |
| `Types.UnmarshalNullString` | types.go:170-182 | decoding succeeds exactly on null and strings; a decoded string becomes a valid NullString that encodes back to the input; null and refused values leave the receiver unchanged |
| `Types.NullStringRoundTrip` | types.go:170-182 | decoding into a fresh NullString succeeds exactly on null and strings, the empty string included, and reading the result back gives the input |
| `Types.NullStringMonotone` | types.go:175-179 | `Valid` becomes true exactly when a string was decoded or it was already true; a refused value changes nothing |
| `Types.NullStringIdempotent` | types.go:170-182 | decoding the same input twice is the same as decoding it once |
| `Types.UnmarshalRemoteAddress` | types.go:185-209 | a value that is not an object is a type error that leaves the receiver unchanged; an object with a non-string `type` or `address` member is a type error; success means the tag names a family and the stored address is the one the resolver returns for that family and address; an unknown-tag error names the stored tag; a resolution error names the family and address and leaves no resolved address |
| `Types.RemoteAddressDispatch` | types.go:193-209 | for a well-typed object, decoding succeeds exactly when the tag is "v4" or "v6" and the address resolves in that family; the result holds the tag, the address and the resolved address; any other tag is an error naming it; a failed resolution is an error naming the family and address, and leaves no resolved address |
| `Types.RemoteAddressMissingTag` | types_test.go:91 | an empty object has the empty tag, which is refused by name |
| `Types.RemoteAddressExamples` | types_test.go:88-90 | tag "v8" is refused by name; "v4" with an address that does not resolve is refused |
| `Types.UnmarshalHoliday` | types.go:223-237 | decoding succeeds exactly on a well-typed object whose `date` text is a real date in the layout, and then the holiday is its `title` text and that date; a value that is neither null nor a well-typed object is a type error that leaves the receiver unchanged; any other failure is a date error that keeps the old title and sets the zero date |
| `Types.HolidayIgnoresWeekdayMembers` | types.go:223-237 | two well-typed records with the same `title` and `date` texts decode alike, whatever their `day_of_week` members say |
| `Types.HolidayWrongWeekdayIgnored` | types.go:224-235 | a record for 2022-01-01 claiming "monday", day 3, decodes as if those members were absent |
| `Types.AsciiLower` | types.go:246 | lower-casing keeps the length, maps each upper-case ASCII letter to the same lower-case letter, and leaves every other character alone |
| `Types.MarshalHoliday` | types.go:240-248 | the encoding has four members, in order: `title` with the title, `date` with the formatted date, and `day_of_week` and `day_of_week_text` with the RFC 3339 Appendix B weekday of the date and its lower-case English name |
| `Types.SmallNumberFitsInt` | types.go:25 | a one-digit weekday number fits the wire record's int field |
| `Types.HolidayRoundTrip` | types.go:223-248 | encoding a holiday with a four-digit year and decoding the result gives the holiday back, whatever the receiver held |
| `Types.HolidayReencode` | types.go:223-248 | decoding and then encoding keeps the wire record's title and date text exactly |
| `Types.HolidayDecodeExample` | types_test.go:132 | the normal record gives title "元日" and date 2022-01-01 |
| `Types.HolidayBadTitleExample` | types_test.go:133 | a numeric title is an error that leaves the receiver unchanged |
| `Types.HolidayBadDateExample` | types_test.go:134 | "2022/01/01" is an error naming the text; no title is stored and the time becomes the zero time |
| `Types.HolidayEncodeExamples` | types_test.go:173-174 | 2022-01-01 encodes with day 6, "saturday"; the zero holiday encodes as "0001-01-01", day 1, "monday" |

## Left out

- HTTP execution (`HTTPClient.Do`), `context`, and draining and closing the
  response body (client.go:59, 68-71; kenall.go:121-124). These are I/O; the
  transport's outcome is an input.
- A nil `HTTPClient` is modelled, but the panic it causes in `Do` is not: the
  outcome stays an input.
- `http.NewRequestWithContext` is modelled only by whether it fails; its
  reasons (nil context, unparsable URL) come from outside.
- Tokenising JSON and handling its string escapes: the decoders work on a
  tokenised JSON value. Two further simplifications:
  - encoding/json's case-insensitive key matching is not modelled, so keys
    match exactly;
  - `Version` sees the raw text, as in Go.
- `net.ResolveIPAddr`, `Network()` and `String()`: resolution may query DNS,
  so it is a parameter. The other two only forward to the resolved address.
- Time zones and time of day: dates are (year, month, day). The JST offset
  used for holidays and UTC midnight for versions do not change the calendar
  date.
- The field-only records (`Address`, `City`, `Corporation`, `Query` and the
  response structs): they use default decoding. The body decoder is a
  parameter of the lookups.
- Holidays by year or period, business days, and address normalisation:
  types.go refers to `BusinessDay`, but these are not part of this model.
- Status 502: the tests mention a bad-gateway sentinel that errors.go does
  not define. 502 is therefore an unregistered status here.
- Error message text: errors carry their kind, the status, the cause, the
  date text or the tag, not the formatted message.
- `Numeric.Atoi`: the kind of `strconv` error (syntax or range) is not
  distinguished.
- `Types.UnmarshalRemoteAddress`: decoding the JSON null dereferences a nil
  pointer in Go, so the model requires a non-null input.
- `Types.AsciiLower`: `strings.ToLower` is modelled for ASCII only. The
  weekday names it is applied to are ASCII.
- `Options.ClientOption`: in Go an option is any value with an `Apply`
  method. The model closes the type to the two options options.go defines,
  and a nil option, which panics in Go, is not modelled.
- `Json.Fits`: an `int` field is read as 64 bits wide. On a 32-bit platform
  encoding/json refuses a `day_of_week` number beyond the 32-bit range; that
  narrower check is not modelled. The encoder only writes 0..6 there. The
  lookups are modelled for both widths (`Kenall.ValidCodeAgrees`), and
  `Kenall.ValidCode` is the 64-bit one they use.
- `Kenall.DispatchKeepsSentinel`: the "only when" direction assumes a
  transport failure never wraps one of this package's sentinels. In Go a
  custom HTTP client (`WithHTTPClient`) whose transport or redirect policy
  returns, say, `ErrUnauthorized` makes `errors.Is` hold without a 401
  answer; such causes are not modelled.
- Bytes and characters: a Go string is modelled as a sequence of characters,
  one per byte. The codes the lookups accept are ASCII, so lengths agree.
- A valid code is easily read as "all digits", but the code calls
  `strconv.Atoi`, which also accepts one leading `+` or `-`: "+123456" is a
  postal code and "-1" a prefecture code. The model follows the code.

## Findings

| source | as written | input that shows it | evidently intended | confidence | as-written member | corrected member |
|---|---|---|---|---|---|---|
| client.go:161 | the corporate number is checked with `strconv.Atoi`, which fails with a range error when Go's `int` is 32 bits wide and the number exceeds 2147483647 | `GetCorporation(ctx, "2021001052596")` on a 32-bit platform (GOARCH=386 or arm) returns the invalid-argument error | any 13-byte string of decimal digits (with Atoi's optional sign) is accepted on every platform, as `Kenall.ValidCode` states and the lookups use | high; not executed | `Kenall.CorporateNumberRejectedOn32Bit` | `Kenall.ValidCodeAgrees` |

=== FILE: calendar.dfy ===
/** The proleptic Gregorian calendar as Go's time package uses it: dates are
    (year, month, day) triples, day 0 is 0001-01-01 and that day is a
    Monday. Leap years follow Appendix C of RFC 3339, month lengths
    section 5.7 of RFC 3339, and the day of the week is checked against the
    algorithm of Appendix B of RFC 3339. */
module Calendar {
  import Numeric

  datatype Date = Date(year: int, month: int, day: int)

  /** The calendar date of Go's zero `time.Time` (January 1, year 1, UTC). */
  const ZeroDate := Date(1, 1, 1)

  predicate IsLeapYear(y: int) {
    y % 4 == 0 && (y % 100 != 0 || y % 400 == 0)
  }

  function DaysInMonth(y: int, m: int): int
    requires 1 <= m <= 12
  {
    if m == 2 then (if IsLeapYear(y) then 29 else 28)
    else if m == 4 || m == 6 || m == 9 || m == 11 then 30
    else 31
  }

  /** A real calendar date: month 1..12, day within the month's length. */
  predicate IsValid(d: Date) {
    1 <= d.month <= 12 && 1 <= d.day <= DaysInMonth(d.year, d.month)
  }

  function DaysInYear(y: int): int {
    if IsLeapYear(y) then 366 else 365
  }

  /** Days from 0001-01-01 to January 1 of year y (negative before year 1),
      by adding up whole years. */
  function DaysBeforeYear(y: int): int
    decreases if y >= 1 then y - 1 else 1 - y
  {
    if y == 1 then 0
    else if y > 1 then DaysBeforeYear(y - 1) + DaysInYear(y - 1)
    else DaysBeforeYear(y + 1) - DaysInYear(y)
  }

  /** Days from January 1 to the first of month m, by adding up months. */
  function DaysBeforeMonth(y: int, m: int): int
    requires 1 <= m <= 12
  {
    if m == 1 then 0 else DaysBeforeMonth(y, m - 1) + DaysInMonth(y, m - 1)
  }

  /** Days from 0001-01-01 to d. */
  function DayNumber(d: Date): int
    requires 1 <= d.month <= 12
  {
    DaysBeforeYear(d.year) + DaysBeforeMonth(d.year, d.month) + d.day - 1
  }

  /** `time.Weekday`: 0 is Sunday .. 6 is Saturday; day 0 is a Monday. */
  function Weekday(d: Date): (w: int)
    requires 1 <= d.month <= 12
    ensures 0 <= w < 7
  {
    (DayNumber(d) + 1) % 7
  }

  /** `time.Weekday.String`. */
  const WeekdayNames: seq<string> :=
    ["Sunday", "Monday", "Tuesday", "Wednesday", "Thursday", "Friday", "Saturday"]

  /** The day-of-week algorithm of Appendix B of RFC 3339: count months
      from March so that February is last, split the year into century and
      year of century, and sum. The C original uses truncating `/` and `%`;
      they agree with Dafny's on the non-negative operands it meets for
      every year from 1 on. */
  function RfcDayOfWeek(d: Date): int
    requires 1 <= d.month <= 12
  {
    var m := if d.month < 3 then d.month + 10 else d.month - 2;
    var y := if d.month < 3 then d.year - 1 else d.year;
    var cent := y / 100;
    var yy := y % 100;
    ((26 * m - 2) / 10 + d.day + yy + yy / 4 + cent / 4 + 5 * cent) % 7
  }

  /** Leap years among years 1..x (the negated count of those in x+1..0
      when x is negative). */
  function LeapsThrough(x: int): int {
    x / 4 - x / 100 + x / 400
  }

  lemma DivStep(y: int, k: int)
    requires k > 0
    ensures y / k - (y - 1) / k == if y % k == 0 then 1 else 0
  {
    var q, r := (y - 1) / k, (y - 1) % k;
    if r + 1 < k {
      Numeric.DivModUnique(y, k, q, r + 1);
    } else {
      Numeric.DivModUnique(y, k, q + 1, 0);
    }
  }

  /** Going from year y-1 to year y adds one to the leap count exactly when
      y is a leap year. */
  lemma LeapStep(y: int)
    ensures LeapsThrough(y) - LeapsThrough(y - 1) == if IsLeapYear(y) then 1 else 0
  {
    DivStep(y, 4);
    DivStep(y, 100);
    DivStep(y, 400);
    if y % 400 == 0 {
      Numeric.DivModUnique(y, 100, 4 * (y / 400), 0);
    }
    if y % 100 == 0 {
      Numeric.DivModUnique(y, 4, 25 * (y / 100), 0);
    }
  }

  /** The year sum has the usual closed form: 365 days a year plus one for
      every leap year before y. */
  lemma {:induction false} DaysBeforeYearClosed(y: int)
    ensures DaysBeforeYear(y) == 365 * (y - 1) + LeapsThrough(y - 1)
    decreases if y >= 1 then y - 1 else 1 - y
  {
    if y > 1 {
      DaysBeforeYearClosed(y - 1);
      LeapStep(y - 1);
    } else if y < 1 {
      DaysBeforeYearClosed(y + 1);
      LeapStep(y);
    }
  }

  /** Days from March 1 to the first of the m-th month of a year that
      starts in March (m = 1 is March, m = 12 is February). */
  function DaysFromMarch(m: int): int
    requires 1 <= m <= 12
  {
    [0, 31, 61, 92, 122, 153, 184, 214, 245, 275, 306, 337][m - 1]
  }

  lemma DaysBeforeMonthTable(y: int, m: int)
    requires 1 <= m <= 12
    ensures m >= 3 ==> DaysBeforeMonth(y, m) == 59 + (if IsLeapYear(y) then 1 else 0) + DaysFromMarch(m - 2)
    ensures m == 1 ==> DaysBeforeMonth(y, m) == 0
    ensures m == 2 ==> DaysBeforeMonth(y, m) == 31
  {
  }

  /** Counting in March-based years: the days from 0001-01-01 to the first
      of month m of year y, where March of year Y starts 306 days before the
      end of the first Y years' worth of leap-adjusted days. */
  lemma MarchBased(d: Date)
    requires 1 <= d.month <= 12
    ensures var m := if d.month < 3 then d.month + 10 else d.month - 2;
      var y := if d.month < 3 then d.year - 1 else d.year;
      DayNumber(d) + 1 == 365 * y + LeapsThrough(y) - 306 + DaysFromMarch(m) + d.day
  {
    DaysBeforeYearClosed(d.year);
    DaysBeforeMonthTable(d.year, d.month);
    if d.month >= 3 {
      LeapStep(d.year);
    }
  }

  /** Splitting a year into century and year of century. */
  lemma CenturySplit(y: int)
    ensures var cent, yy := y / 100, y % 100;
      y / 4 == 25 * cent + yy / 4 && y / 100 == cent && y / 400 == cent / 4
  {
  }

  lemma ModShift(a: int, k: int)
    ensures (a + 7 * k) % 7 == a % 7
  {
  }

  /** The weekday Go derives from the day count agrees with the algorithm
      of Appendix B of RFC 3339, for every date. */
  lemma {:induction false} WeekdayMatchesRfc(d: Date)
    requires 1 <= d.month <= 12
    ensures Weekday(d) == RfcDayOfWeek(d)
  {
    var m := if d.month < 3 then d.month + 10 else d.month - 2;
    var y := if d.month < 3 then d.year - 1 else d.year;
    var cent, yy := y / 100, y % 100;
    MarchBased(d);
    CenturySplit(y);
    assert y == 100 * cent + yy;
    var k := 4 * m - 48;
    assert DaysFromMarch(m) - 306 == (26 * m - 2) / 10 + 7 * k;
    var rfc := (26 * m - 2) / 10 + d.day + yy + yy / 4 + cent / 4 + 5 * cent;
    assert DayNumber(d) + 1 == rfc + 7 * (5217 * cent + 52 * yy + k);
    ModShift(rfc, 5217 * cent + 52 * yy + k);
  }

  /** The two days the client's tests pin down: 2022-01-01 is a Saturday
      and the zero date is a Monday. */
  lemma KnownWeekdays()
    ensures Weekday(Date(2022, 1, 1)) == 6 && WeekdayNames[6] == "Saturday"
    ensures Weekday(ZeroDate) == 1 && WeekdayNames[1] == "Monday"
  {
    WeekdayMatchesRfc(Date(2022, 1, 1));
  }
}

=== FILE: config.dfy ===
/** The client record of client.go: which HTTP client it sends through,
    which endpoint it calls, and its authorization token. */
module Config {

  /** The `*http.Client` a Client holds. Only its identity matters to the
      model: `http.DefaultClient`, nil, or some other client. */
  datatype HttpClient = DefaultClient | NilClient | CustomClient(id: nat)

  /** The kenall service's endpoint, used unless an option replaces it. */
  const DefaultEndpoint := "https://api.kenall.jp/v1"

  datatype Client = Client(httpClient: HttpClient, endpoint: string, token: string)
}

=== FILE: dateformat.dfy ===
/** Go's `time.Parse` and `Time.Format` restricted to the layout
    "2006-01-02" (the full-date of section 5.6 of RFC 3339) that the client
    uses everywhere. */
module DateFormat {
  import opened Results
  import opened Numeric
  import opened Calendar

  /** The text shape the layout demands: four digits, '-', two digits, '-',
      two digits, and nothing after. `time.Parse` reads the year as exactly
      four digits (a sign is refused), the month and day as exactly two. */
  predicate DateShaped(s: string) {
    && |s| == 10
    && AllDigits(s[0..4]) && s[4] == '-'
    && AllDigits(s[5..7]) && s[7] == '-'
    && AllDigits(s[8..10])
  }

  /** `time.Parse("2006-01-02", s)`, as a calendar date. The month must be
      in 1..12 and the day within that month's length in that year; the
      time of day is midnight and is not modelled. */
  function ParseDate(s: string): (r: Option<Date>)
    ensures r.Some? ==> IsValid(r.value) && 0 <= r.value.year <= 9999
    ensures r.Some? ==> DateShaped(s)
  {
    if DateShaped(s) then
      var year := DigitsValue(s[0..4]);
      var month := DigitsValue(s[5..7]);
      var day := DigitsValue(s[8..10]);
      if !(1 <= month <= 12) then None
      else if !(1 <= day <= DaysInMonth(year, month)) then None
      else
        DigitsValueBound(s[0..4]);
        assert Pow10(4) == 10000;
        Some(Date(year, month, day))
    else None
  }

  /** `Time.Format("2006-01-02")`: the year through `appendInt` with width 4
      (so a negative year keeps its sign and a year past 9999 all its
      digits), then month and day with width 2. */
  function FormatDate(d: Date): (r: string)
    ensures 0 <= d.year <= 9999 && 0 <= d.month <= 99 && 0 <= d.day <= 99 ==>
      && DateShaped(r)
      && DigitsValue(r[0..4]) == d.year && DigitsValue(r[5..7]) == d.month && DigitsValue(r[8..10]) == d.day
  {
    var y, m, dd := AppendInt(d.year, 4), AppendInt(d.month, 2), AppendInt(d.day, 2);
    var r := y + "-" + m + "-" + dd;
    if 0 <= d.year <= 9999 && 0 <= d.month <= 99 && 0 <= d.day <= 99 then
      AppendIntRoundTrip(d.year, 4);
      AppendIntRoundTrip(d.month, 2);
      AppendIntRoundTrip(d.day, 2);
      assert r[0..4] == y && r[5..7] == m && r[8..10] == dd;
      r
    else r
  }

  /** Every valid date with a four-digit year is written in the layout and
      read back unchanged. */
  lemma ParseFormat(d: Date)
    requires IsValid(d) && 0 <= d.year <= 9999
    ensures DateShaped(FormatDate(d))
    ensures ParseDate(FormatDate(d)) == Some(d)
  {
  }

  /** Every accepted text is the canonical rendering of the date read from
      it: parsing loses nothing. */
  lemma FormatParse(s: string)
    requires ParseDate(s).Some?
    ensures FormatDate(ParseDate(s).value) == s
  {
    var d := ParseDate(s).value;
    AppendIntCanonical(s[0..4]);
    AppendIntCanonical(s[5..7]);
    AppendIntCanonical(s[8..10]);
    assert s == s[0..4] + "-" + s[5..7] + "-" + s[8..10];
  }

  /** The layout accepts exactly the renderings of valid dates with years
      0000..9999. */
  lemma ParseDateExactly(s: string)
    ensures ParseDate(s).Some? <==> exists d :: IsValid(d) && 0 <= d.year <= 9999 && FormatDate(d) == s
  {
    if ParseDate(s).Some? {
      FormatParse(s);
    }
    forall d | IsValid(d) && 0 <= d.year <= 9999 && FormatDate(d) == s
      ensures ParseDate(s).Some?
    {
      ParseFormat(d);
    }
  }

  /** Inputs from the client's tests: a plain date and a leap day are
      accepted. */
  lemma ParseDateAccepted()
    ensures ParseDate("2020-11-30") == Some(Date(2020, 11, 30))
    ensures ParseDate("2022-01-01") == Some(Date(2022, 1, 1))
    ensures ParseDate("2020-02-29") == Some(Date(2020, 2, 29))
  {
    ParseFormat(Date(2020, 11, 30));
    assert FormatDate(Date(2020, 11, 30)) == "2020-11-30";
    ParseFormat(Date(2022, 1, 1));
    assert FormatDate(Date(2022, 1, 1)) == "2022-01-01";
    ParseFormat(Date(2020, 2, 29));
    assert FormatDate(Date(2020, 2, 29)) == "2020-02-29";
  }

  /** The compact form and slashes are refused, and so is February 29 of
      a common year. */
  lemma ParseDateRefused()
    ensures ParseDate("20201130").None? && ParseDate("2022/01/01").None?
    ensures ParseDate("2021-02-29").None?
  {
    var s := "2021-02-29";
    assert s[0..4] == "2021" && s[5..7] == "02" && s[8..10] == "29";
    DigitsValueOfTwo("02");
    DigitsValueOfTwo("29");
    DigitsValueOfFour("2021");
    assert !DateShaped("2022/01/01");
  }
}

=== FILE: errors.dfy ===
/** The client's error values: the sentinels of errors.go, the timeout
    wrapper, and the formatted errors client.go builds with `fmt.Errorf`.
    Messages are not modelled beyond the kind of error and the data it
    carries; `%w` wrapping is kept because `errors.Is` looks through it. */
module Errors {
  import opened Results

  /** The identity-comparable error values of errors.go. */
  datatype Sentinel =
    | InvalidArgument
    | Unauthorized
    | PaymentRequired
    | Forbidden
    | NotFound
    | MethodNotAllowed
    | InternalServerError

  /** The HTTP status each sentinel stands for, as its message in errors.go
      names it; the argument check has none. */
  function StatusOf(s: Sentinel): Option<int> {
    match s
    case InvalidArgument => None
    case Unauthorized => Some(401)
    case PaymentRequired => Some(402)
    case Forbidden => Some(403)
    case NotFound => Some(404)
    case MethodNotAllowed => Some(405)
    case InternalServerError => Some(500)
  }

  /** A transport failure as the transport reports it: whether it is (or
      wraps) `context.DeadlineExceeded`, whether `os.IsTimeout` holds of
      it, and its text. All three are decided outside the model. The model
      assumes a cause never wraps one of this package's sentinels, which a
      custom HTTP client could make happen in Go. */
  datatype Cause = Cause(deadlineExceeded: bool, timeout: bool, message: string)

  datatype Error =
    | SentinelError(sentinel: Sentinel)
      /** `ErrTimeout(err)`. */
    | Timeout(cause: Cause)
      /** Any other failure to get a response. */
    | Transport(cause: Cause)
      /** A status code the dispatcher has no sentinel for; a fresh value
          on every call, never identity-comparable. */
    | Unregistered(status: int)
      /** The success body could not be decoded. */
    | Decode(reason: string)
      /** `http.NewRequestWithContext` refused the request. */
    | RequestInvalid(reason: string)
      /** `fmt.Errorf(context + ": %w", inner)`: the context wrappers the
          lookups put around request and send failures. `Timeout`,
          `Transport`, `Decode` and `RequestInvalid` also wrap a cause in
          Go; the model keeps that cause as data, assuming it is never a
          sentinel. */
    | Wrapped(context: string, inner: Error)

  /** `errors.Is(e, target)` for a sentinel target: sentinels compare by
      identity, and the context wrappers are looked through, so the answer
      depends only on what lies under them. */
  predicate Is(e: Error, target: Sentinel)
    ensures Is(e, target) <==> Unwrapped(e) == SentinelError(target)
  {
    match e
    case SentinelError(s) => s == target
    case Wrapped(_, inner) => Is(inner, target)
    case _ => false
  }

  /** The error under all the context wrappers. */
  function Unwrapped(e: Error): (r: Error)
    ensures !r.Wrapped?
  {
    match e
    case Wrapped(_, inner) => Unwrapped(inner)
    case _ => e
  }

  /** Distinct sentinels stand for distinct statuses, so a status
      determines at most one sentinel. */
  lemma StatusOfInjective(s: Sentinel, t: Sentinel)
    requires StatusOf(s).Some? && StatusOf(s) == StatusOf(t)
    ensures s == t
  {
  }
}

=== FILE: json.dfy ===
/** An already-tokenised JSON value, and the rules by which Go's
    encoding/json fills a struct's `string` and `int` fields from an object.
    Tokenising, string escapes and the decoder's case-insensitive key
    matching are not modelled: keys match exactly. */
module Json {
  import Numeric

  datatype Json =
    | Null
    | Bool(b: bool)
    | Num(literal: string)  // the number as written, e.g. "6" or "6.5"
    | Str(s: string)
    | Arr(items: seq<Json>)
    | Obj(members: seq<Member>)

  datatype Member = Member(key: string, value: Json)

  /** The Go type of the struct field a member is decoded into. */
  datatype FieldKind = StringField | IntField

  /** Whether a member value fits a field of that kind. `null` fits every
      field and leaves it alone; an `int` field (64 bits wide) takes a
      number literal that `strconv.ParseInt(lit, 10, 64)` reads, so "6.0"
      and "1e2" do not fit it. */
  predicate Fits(v: Json, kind: FieldKind) {
    match v
    case Null => true
    case Str(_) => kind == StringField
    case Num(lit) => kind == IntField && Numeric.ParseInt(lit, Numeric.Int64).Some?
    case _ => false
  }

  /** Every member named `key` fits the field. The decoder records an error
      for any member that does not, keeps going, and reports it at the end. */
  predicate FieldFits(members: seq<Member>, key: string, kind: FieldKind) {
    forall i :: 0 <= i < |members| && members[i].key == key ==> Fits(members[i].value, kind)
  }

  /** The content of a `string` field after decoding: the decoder visits
      the members in order and each string member named `key` overwrites
      the field; null and ill-typed members leave it as it was. */
  function DecodeString(members: seq<Member>, key: string, current: string): string
    decreases |members|
  {
    if |members| == 0 then current
    else
      var m := members[0];
      var next := if m.key == key && m.value.Str? then m.value.s else current;
      DecodeString(members[1..], key, next)
  }

  /** The index of the last string member named `key`, if there is one. */
  function LastStringAt(members: seq<Member>, key: string): (r: int)
    ensures -1 <= r < |members|
    ensures r >= 0 ==> members[r].key == key && members[r].value.Str?
    ensures forall j :: r < j < |members| ==> !(members[j].key == key && members[j].value.Str?)
    decreases |members|
  {
    if |members| == 0 then -1
    else if members[|members| - 1].key == key && members[|members| - 1].value.Str? then |members| - 1
    else LastStringAt(members[..|members| - 1], key)
  }

  /** The last string member wins; with none, the field keeps its value. */
  lemma {:induction false} DecodeStringLastWins(members: seq<Member>, key: string, current: string)
    ensures var i := LastStringAt(members, key);
      DecodeString(members, key, current) == if i >= 0 then members[i].value.s else current
    decreases |members|
  {
    if |members| > 0 {
      var m := members[0];
      var next := if m.key == key && m.value.Str? then m.value.s else current;
      DecodeStringLastWins(members[1..], key, next);
      var j := LastStringAt(members[1..], key);
      if j >= 0 {
        assert members[j + 1] == members[1..][j];
        LastStringAtUnique(members, key, j + 1);
      }
    }
  }

  /** The last string member is the only one with no string member after it. */
  lemma LastStringAtUnique(members: seq<Member>, key: string, k: int)
    requires 0 <= k < |members| && members[k].key == key && members[k].value.Str?
    requires forall j :: k < j < |members| ==> !(members[j].key == key && members[j].value.Str?)
    ensures LastStringAt(members, key) == k
  {
  }

  /** A string member named `key` with no later string member of that
      name decides the field, whatever it held before. */
  lemma DecodeStringAt(members: seq<Member>, key: string, k: int, current: string)
    requires 0 <= k < |members| && members[k].key == key && members[k].value.Str?
    requires forall j :: k < j < |members| ==> !(members[j].key == key && members[j].value.Str?)
    ensures DecodeString(members, key, current) == members[k].value.s
  {
    LastStringAtUnique(members, key, k);
    DecodeStringLastWins(members, key, current);
  }

  /** With no string member named `key`, the field keeps its value. */
  lemma DecodeStringAbsent(members: seq<Member>, key: string, current: string)
    requires forall j :: 0 <= j < |members| ==> !(members[j].key == key && members[j].value.Str?)
    ensures DecodeString(members, key, current) == current
  {
    DecodeStringLastWins(members, key, current);
  }
}

=== FILE: kenall.dfy ===
/** The kenall client's operations: building a client from a token and
    options, checking a lookup's code, building its GET request, and
    classifying what the transport brings back. The two revisions of the
    package (client.go, and the older kenall.go with only the address and
    city lookups) share this logic. Everything the outside world decides
    (whether a request can be built, what the transport returns, how the
    success body decodes) is an input. */
module Kenall {
  import opened Results
  import opened Numeric
  import opened Errors
  import opened Config
  import opened Options

  // ------------------------------------------------------------ NewClient

  /** `NewClient(token, opts...)`: an empty token is refused; otherwise the
      default client, default endpoint and the token, then every option in
      order. */
  function NewClient(token: string, opts: seq<ClientOption>): (r: Result<Client, Error>)
    ensures r.Err? <==> token == ""
    ensures r.Err? ==> r.error == SentinelError(InvalidArgument)
    ensures r.Ok? ==> r.value.token == token
    ensures r.Ok? ==> r.value.endpoint == LastEndpoint(opts).GetOr(DefaultEndpoint)
    ensures r.Ok? ==> r.value.httpClient == LastHttpClient(opts).GetOr(DefaultClient)
  {
    if token == "" then Err(SentinelError(InvalidArgument))
    else
      var cli := Client(DefaultClient, DefaultEndpoint, token);
      LastOptionWins(opts, cli);
      Ok(ApplyAll(opts, cli))
  }

  /** The client's tests: an empty token fails; without options the
      endpoint is the service's; with an endpoint option it is that one. */
  lemma NewClientExamples()
    ensures NewClient("", []) == Err(SentinelError(InvalidArgument))
    ensures NewClient("t", []).Ok? && NewClient("t", []).value.endpoint == "https://api.kenall.jp/v1"
    ensures NewClient("t", [WithEndpoint("a"), WithHTTPClient(NilClient), WithEndpoint("b")]).value
         == Client(NilClient, "b", "t")
  {
  }

  // -------------------------------------------------------------- Requests

  datatype Method = Get

  datatype Header = Header(name: string, value: string)

  /** An outgoing request: its method, URL and headers in the order added. */
  datatype Request = Request(verb: Method, url: string, headers: seq<Header>)

  /** The header `sendRequest` adds before handing a request over. */
  function AuthHeader(token: string): Header {
    Header("Authorization", "token " + token)
  }

  /** The request carries the header `name: value`. */
  predicate HasHeader(req: Request, name: string, value: string) {
    exists i :: 0 <= i < |req.headers| && req.headers[i] == Header(name, value)
  }

  // ------------------------------------------------------------ sendRequest

  /** What the transport does with a request: fail with a cause, or answer
      with a status and a body. */
  datatype Outcome = NoResponse(cause: Cause) | Response(status: int, body: string)

  /** What `sendRequest` makes of an outcome before reading any body. */
  datatype Verdict = DecodeBody | Reject(error: Error)

  /** The classification in `sendRequest`: a failure that is (or wraps) a
      deadline exceeded, or that is a timeout, is a timeout error; any
      other failure is a transport error; 200 means decode the body; each
      status with a sentinel gives that sentinel; any other status gives an
      error carrying the status. */
  function Classify(o: Outcome): (v: Verdict)
    ensures v.DecodeBody? <==> o.Response? && o.status == 200
  {
    match o
    case NoResponse(c) =>
      if c.deadlineExceeded || c.timeout then Reject(Timeout(c)) else Reject(Transport(c))
    case Response(status, _) =>
      if status == 200 then DecodeBody
      else if status == 401 then Reject(SentinelError(Unauthorized))
      else if status == 402 then Reject(SentinelError(PaymentRequired))
      else if status == 403 then Reject(SentinelError(Forbidden))
      else if status == 404 then Reject(SentinelError(NotFound))
      else if status == 405 then Reject(SentinelError(MethodNotAllowed))
      else if status == 500 then Reject(SentinelError(InternalServerError))
      else Reject(Unregistered(status))
  }

  /** A status maps to a sentinel exactly when that sentinel's message
      names the status. */
  lemma ClassifyMatchesSentinelStatus(status: int, body: string, s: Sentinel)
    ensures Classify(Response(status, body)) == Reject(SentinelError(s)) <==> StatusOf(s) == Some(status)
  {
  }

  /** A status other than 200 that no sentinel names gives an error
      carrying that status, and only such a status does. */
  lemma ClassifyUnregistered(status: int, body: string)
    ensures Classify(Response(status, body)) == Reject(Unregistered(status))
        <==> status != 200 && forall s: Sentinel :: StatusOf(s) != Some(status)
  {
    if status == 401 { assert StatusOf(Unauthorized) == Some(status); }
    if status == 402 { assert StatusOf(PaymentRequired) == Some(status); }
    if status == 403 { assert StatusOf(Forbidden) == Some(status); }
    if status == 404 { assert StatusOf(NotFound) == Some(status); }
    if status == 405 { assert StatusOf(MethodNotAllowed) == Some(status); }
    if status == 500 { assert StatusOf(InternalServerError) == Some(status); }
  }

  /** A failed transport gives a timeout exactly when its cause is a
      deadline exceeded or a timeout, and a plain transport error
      otherwise; the cause is kept either way. */
  lemma ClassifyTransport(c: Cause)
    ensures Classify(NoResponse(c)) == Reject(Timeout(c)) <==> c.deadlineExceeded || c.timeout
    ensures Classify(NoResponse(c)) == Reject(Transport(c)) <==> !(c.deadlineExceeded || c.timeout)
  {
  }

  /** A request as handed to the transport, and the call's result. No
      request is handed over when the call stops before dispatch. */
  datatype Exchange<T> = Exchange(sent: Option<Request>, result: Result<T, Error>)

  /** `cli.sendRequest(req, &res)`: add the authorization header, dispatch,
      classify, and on 200 decode the body with `decode`. */
  function SendRequest<T>(cli: Client, req: Request, outcome: Outcome, decode: string -> Result<T, string>): (x: Exchange<T>)
    ensures x.sent.Some? && HasHeader(x.sent.value, "Authorization", "token " + cli.token)
    ensures x.sent.value.url == req.url && x.sent.value.verb == req.verb
    ensures x.result.Ok? <==> outcome.Response? && outcome.status == 200 && decode(outcome.body).Ok?
    ensures x.result.Ok? ==> outcome.Response? && x.result.value == decode(outcome.body).value
    ensures Classify(outcome).Reject? ==> x.result == Err(Classify(outcome).error)
    ensures Classify(outcome).DecodeBody? && decode(outcome.body).Err? ==>
      x.result == Err(Decode(decode(outcome.body).error))
  {
    var sent := req.(headers := req.headers + [AuthHeader(cli.token)]);
    assert sent.headers[|req.headers|] == AuthHeader(cli.token);
    var result: Result<T, Error> :=
      match Classify(outcome)
      case Reject(e) => Err(e)
      case DecodeBody =>
        (match decode(outcome.body)
         case Ok(v) => Ok(v)
         case Err(m) => Err(Decode(m)));
    Exchange(Some(sent), result)
  }

  /** The body is read only on 200: for any other outcome the result does
      not depend on the decoder, and on 200 it is the decoder's value. */
  lemma BodyDecodedOnlyOn200<T>(cli: Client, req: Request, outcome: Outcome,
                                d1: string -> Result<T, string>, d2: string -> Result<T, string>)
    ensures !(outcome.Response? && outcome.status == 200) ==>
      SendRequest(cli, req, outcome, d1) == SendRequest(cli, req, outcome, d2)
    ensures outcome.Response? && outcome.status == 200 && d1(outcome.body).Ok? ==>
      SendRequest(cli, req, outcome, d1).result == Ok(d1(outcome.body).value)
  {
  }

  // ------------------------------------------------------------- Validation

  /** The code check as written: `strconv.Atoi(code)` succeeds and the
      code has exactly `length` bytes. */
  predicate ValidCodeAsWritten(code: string, length: nat, p: Platform) {
    Atoi(code, p).Some? && |code| == length
  }

  /** The code check as intended: exactly `length` bytes, an optional sign
      and then decimal digits, on every platform. */
  predicate ValidCode(code: string, length: nat) {
    |code| == length && SignedDigits(code)
  }

  /** For codes under 19 bytes on a 64-bit platform, and under 10 bytes
      on a 32-bit one, the validation as written is the intended one. */
  lemma ValidCodeAgrees(code: string, length: nat, p: Platform)
    requires length < FastPathLimit(p)
    ensures ValidCodeAsWritten(code, length, p) <==> ValidCode(code, length)
  {
  }

  /** On a 32-bit platform `strconv.Atoi` overflows on a 13-digit corporate
      number above 2147483647, so a well-formed number is refused. */
  lemma CorporateNumberRejectedOn32Bit()
    ensures ValidCode("2021001052596", 13)
    ensures !ValidCodeAsWritten("2021001052596", 13, Int32)
  {
    var s := "2021001052596";
    AtoiAccepts(s, Int32);
    assert SignedDigits(s) && !(s[0] == '+' || s[0] == '-');
    DigitsValueLeading(s);
    assert Pow10(12) == 1_000_000_000_000;
  }

  /** A sign counts: "+123456" is a postal code and "-1" a prefecture
      code; "alphabet", "123456", "a1", "+" and "+-1" are refused. */
  lemma ValidCodeExamples()
    ensures ValidCode("+123456", 7) && ValidCode("-1", 2) && ValidCode("1008105", 7)
    ensures !ValidCode("alphabet", 7) && !ValidCode("alphabet", 2) && !ValidCode("alphabet", 13)
    ensures !ValidCode("123456", 7) && !ValidCode("a1", 2) && !ValidCode("+", 1) && !ValidCode("+-1", 3)
  {
  }

  // ------------------------------------------------------------ Operations

  /** The context the lookups put around a failure to build the request. */
  const GenerateContext := "kenall: failed to generate http request"
  /** The context the lookups put around a failure of `sendRequest`. */
  const SendContext := "kenall: failed to send request for kenall service"

  /** What the world decides about one call: whether
      `http.NewRequestWithContext` fails (and why), and what the transport
      does with the request. */
  datatype Env = Env(requestError: Option<string>, outcome: Outcome)

  /** What a lookup returns once its request has been handed over: the
      decoded body exactly when the service answered 200 with a body that
      decodes; otherwise the error `sendRequest` classified, or the decode
      failure, under the send context. */
  ghost predicate ReportsOutcome<T>(result: Result<T, Error>, outcome: Outcome, decode: string -> Result<T, string>) {
    && (result.Ok? <==> outcome.Response? && outcome.status == 200 && decode(outcome.body).Ok?)
    && (result.Ok? ==> outcome.Response? && result.value == decode(outcome.body).value)
    && (Classify(outcome).Reject? ==> result == Err(Wrapped(SendContext, Classify(outcome).error)))
    && (Classify(outcome).DecodeBody? && decode(outcome.body).Err? ==>
         result == Err(Wrapped(SendContext, Decode(decode(outcome.body).error))))
  }

  /** Build the GET request for `url` and send it. A request that cannot
      be built is reported before dispatch; a dispatch error is wrapped
      with `%w`. */
  function Dispatch<T>(cli: Client, url: string, env: Env, decode: string -> Result<T, string>): (x: Exchange<T>)
    ensures env.requestError.Some? ==>
      x == Exchange(None, Err(Wrapped(GenerateContext, RequestInvalid(env.requestError.value))))
    ensures env.requestError.None? ==> x.sent.Some? && x.sent.value.url == url && x.sent.value.verb == Get
    ensures env.requestError.None? ==> HasHeader(x.sent.value, "Authorization", "token " + cli.token)
    ensures env.requestError.None? ==> ReportsOutcome(x.result, env.outcome, decode)
  {
    match env.requestError
    case Some(reason) => Exchange(None, Err(Wrapped(GenerateContext, RequestInvalid(reason))))
    case None =>
      var x := SendRequest(cli, Request(Get, url, []), env.outcome, decode);
      Exchange(x.sent, match x.result case Ok(v) => Ok(v) case Err(e) => Err(Wrapped(SendContext, e)))
  }

  /** A lookup by code: refuse an invalid code without building a
      request, else GET `endpoint + path + code`. */
  function Lookup<T>(cli: Client, path: string, code: string, length: nat, env: Env,
                     decode: string -> Result<T, string>): (x: Exchange<T>)
    ensures !ValidCode(code, length) ==> x == Exchange(None, Err(SentinelError(InvalidArgument)))
    ensures ValidCode(code, length) && env.requestError.None? ==>
      && x.sent.Some? && x.sent.value.verb == Get && x.sent.value.url == cli.endpoint + path + code
      && HasHeader(x.sent.value, "Authorization", "token " + cli.token)
      && ReportsOutcome(x.result, env.outcome, decode)
    ensures ValidCode(code, length) && env.requestError.Some? ==>
      x.sent.None? && x.result.Err? && !Is(x.result.error, InvalidArgument)
  {
    if !ValidCode(code, length) then Exchange(None, Err(SentinelError(InvalidArgument)))
    else Dispatch(cli, cli.endpoint + path + code, env, decode)
  }

  /** `GetAddress`: a 7-byte postal code, GET `endpoint/postalcode/code`. */
  function GetAddress<T>(cli: Client, postalCode: string, env: Env, decode: string -> Result<T, string>): (x: Exchange<T>)
    ensures !ValidCode(postalCode, 7) ==> x == Exchange(None, Err(SentinelError(InvalidArgument)))
    ensures ValidCode(postalCode, 7) && env.requestError.None? ==>
      && x.sent.Some? && x.sent.value.verb == Get && x.sent.value.url == cli.endpoint + "/postalcode/" + postalCode
      && HasHeader(x.sent.value, "Authorization", "token " + cli.token)
      && ReportsOutcome(x.result, env.outcome, decode)
  {
    Lookup(cli, "/postalcode/", postalCode, 7, env, decode)
  }

  /** `GetCity`: a 2-byte prefecture code, GET `endpoint/cities/code`. */
  function GetCity<T>(cli: Client, prefectureCode: string, env: Env, decode: string -> Result<T, string>): (x: Exchange<T>)
    ensures !ValidCode(prefectureCode, 2) ==> x == Exchange(None, Err(SentinelError(InvalidArgument)))
    ensures ValidCode(prefectureCode, 2) && env.requestError.None? ==>
      && x.sent.Some? && x.sent.value.verb == Get && x.sent.value.url == cli.endpoint + "/cities/" + prefectureCode
      && HasHeader(x.sent.value, "Authorization", "token " + cli.token)
      && ReportsOutcome(x.result, env.outcome, decode)
  {
    Lookup(cli, "/cities/", prefectureCode, 2, env, decode)
  }

  /** `GetCorporation`: a 13-byte corporate number, GET
      `endpoint/houjinbangou/number`. */
  function GetCorporation<T>(cli: Client, corporateNumber: string, env: Env, decode: string -> Result<T, string>): (x: Exchange<T>)
    ensures !ValidCode(corporateNumber, 13) ==> x == Exchange(None, Err(SentinelError(InvalidArgument)))
    ensures ValidCode(corporateNumber, 13) && env.requestError.None? ==>
      && x.sent.Some? && x.sent.value.verb == Get && x.sent.value.url == cli.endpoint + "/houjinbangou/" + corporateNumber
      && HasHeader(x.sent.value, "Authorization", "token " + cli.token)
      && ReportsOutcome(x.result, env.outcome, decode)
  {
    Lookup(cli, "/houjinbangou/", corporateNumber, 13, env, decode)
  }

  /** `GetWhoami`: no argument, GET `endpoint/whoami`. */
  function GetWhoami<T>(cli: Client, env: Env, decode: string -> Result<T, string>): (x: Exchange<T>)
    ensures env.requestError.None? ==>
      && x.sent.Some? && x.sent.value.verb == Get && x.sent.value.url == cli.endpoint + "/whoami"
      && HasHeader(x.sent.value, "Authorization", "token " + cli.token)
      && ReportsOutcome(x.result, env.outcome, decode)
    ensures env.requestError.Some? ==> x.sent.None?
  {
    Dispatch(cli, cli.endpoint + "/whoami", env, decode)
  }

  /** A lookup reports the argument error exactly for an invalid code,
      whatever the world does, and hands a request over exactly when the
      code is valid and the request can be built. */
  lemma LookupRefusesExactlyInvalid<T>(cli: Client, path: string, code: string, length: nat, env: Env,
                                       decode: string -> Result<T, string>)
    ensures var x := Lookup(cli, path, code, length, env, decode);
      && (x.result.Err? && Is(x.result.error, InvalidArgument) <==> !ValidCode(code, length))
      && (x.sent.Some? <==> ValidCode(code, length) && env.requestError.None?)
  {
  }

  /** A sentinel's identity survives the send context: after a dispatched
      request, the caller's `errors.Is(err, s)` holds exactly when the
      service answered with the status that sentinel names. The "only when"
      rests on transport causes never wrapping a sentinel. */
  lemma DispatchKeepsSentinel<T>(cli: Client, url: string, env: Env, decode: string -> Result<T, string>, s: Sentinel)
    requires env.requestError.None?
    ensures var x := Dispatch(cli, url, env, decode);
      x.result.Err? && Is(x.result.error, s) <==> env.outcome.Response? && StatusOf(s) == Some(env.outcome.status)
  {
  }

  /** After a dispatched request, the error under the wrapping is a
      timeout carrying the transport's cause exactly when the transport
      failed with a deadline exceeded or a timeout. */
  lemma DispatchKeepsTimeout<T>(cli: Client, url: string, env: Env, decode: string -> Result<T, string>, c: Cause)
    requires env.requestError.None?
    ensures var x := Dispatch(cli, url, env, decode);
      (x.result.Err? && Unwrapped(x.result.error) == Timeout(c))
        <==> env.outcome == NoResponse(c) && (c.deadlineExceeded || c.timeout)
  {
  }

  /** Every request any operation hands over carries the client's
      authorization header. */
  lemma EverySentRequestAuthorized<T>(cli: Client, code: string, env: Env, decode: string -> Result<T, string>)
    ensures var xs := [GetAddress(cli, code, env, decode), GetCity(cli, code, env, decode),
                       GetCorporation(cli, code, env, decode), GetWhoami(cli, env, decode)];
      forall i :: 0 <= i < 4 && xs[i].sent.Some? ==> HasHeader(xs[i].sent.value, "Authorization", "token " + cli.token)
  {
  }

  /** The client's tests: a 503 answer is an error that carries the
      status and is none of the sentinels; a 500 answer is
      `ErrInternalServerError` to the caller; a deadline exceeded in the
      transport is a timeout. */
  lemma StatusExamples<T>(cli: Client, decode: string -> Result<T, string>)
    ensures var x := GetAddress(cli, "5030000", Env(None, Response(503, "")), decode);
      x.result == Err(Wrapped(SendContext, Unregistered(503)))
      && forall s: Sentinel :: !Is(x.result.error, s)
    ensures var x := GetCity(cli, "92", Env(None, Response(500, "")), decode);
      x.result.Err? && Is(x.result.error, InternalServerError)
    ensures var c := Cause(true, true, "context deadline exceeded");
      var x := GetCorporation(cli, "2021001052596", Env(None, NoResponse(c)), decode);
      x.result == Err(Wrapped(SendContext, Timeout(c)))
  {
  }
}

=== FILE: numeric.dfy ===
/** Decimal digit strings: what `strconv.Atoi` accepts and what the time
    package's `appendInt` writes. A Go string is a sequence of bytes; here
    each `char` stands for one byte. */
module Numeric {
  import opened Results

  predicate IsDigit(c: char) {
    '0' <= c <= '9'
  }

  predicate AllDigits(s: string) {
    forall i :: 0 <= i < |s| ==> IsDigit(s[i])
  }

  function DigitValue(c: char): nat
    requires IsDigit(c)
  {
    c as int - '0' as int
  }

  function DigitChar(n: nat): (c: char)
    requires n < 10
    ensures IsDigit(c) && DigitValue(c) == n
  {
    ('0' as int + n) as char
  }

  /** The value of a digit string read left to right (`n = n*10 + d`). */
  function DigitsValue(s: string): nat
    requires AllDigits(s)
    decreases |s|
  {
    if |s| == 0 then 0 else DigitsValue(s[..|s| - 1]) * 10 + DigitValue(s[|s| - 1])
  }

  function Pow10(n: nat): nat {
    if n == 0 then 1 else 10 * Pow10(n - 1)
  }

  /** A string of k digits denotes a number below 10^k. */
  lemma {:induction false} DigitsValueBound(s: string)
    requires AllDigits(s)
    ensures DigitsValue(s) < Pow10(|s|)
    decreases |s|
  {
    if |s| > 0 {
      DigitsValueBound(s[..|s| - 1]);
    }
  }

  /** A digit string is at least its leading digit times 10^(k-1). */
  lemma {:induction false} DigitsValueLeading(s: string)
    requires AllDigits(s) && |s| > 0
    ensures DigitsValue(s) >= DigitValue(s[0]) * Pow10(|s| - 1)
    decreases |s|
  {
    if |s| > 1 {
      var t := s[..|s| - 1];
      assert t[0] == s[0];
      DigitsValueLeading(t);
      calc {
        DigitsValue(s);
      >= DigitsValue(t) * 10;
      >= DigitValue(s[0]) * Pow10(|t| - 1) * 10;
      == DigitValue(s[0]) * Pow10(|s| - 1);
      }
    }
  }

  /** The language `[+-]?[0-9]+`. */
  predicate SignedDigits(s: string) {
    if |s| > 0 && (s[0] == '+' || s[0] == '-') then |s| > 1 && AllDigits(s[1..])
    else |s| > 0 && AllDigits(s)
  }

  /** The integer a `[+-]?[0-9]+` string denotes. */
  function SignedValue(s: string): int
    requires SignedDigits(s)
  {
    if s[0] == '-' then -(DigitsValue(s[1..]) as int)
    else if s[0] == '+' then DigitsValue(s[1..])
    else DigitsValue(s)
  }

  /** The width of Go's `int` on the target platform. */
  datatype Platform = Int32 | Int64

  /** 2^(w-1) for the platform's int width w. */
  function IntCutoff(p: Platform): nat {
    match p
    case Int32 => 0x8000_0000
    case Int64 => 0x8000_0000_0000_0000
  }

  predicate InIntRange(n: int, p: Platform) {
    -(IntCutoff(p) as int) <= n < IntCutoff(p)
  }

  /** Lengths below this take Atoi's fast path, which cannot overflow. */
  function FastPathLimit(p: Platform): nat {
    match p
    case Int32 => 10
    case Int64 => 19
  }

  /** `strconv.ParseInt(s, 10, 0)`: sign, digits only (no underscores in
      base 10), and the value must fit the platform's int. */
  function ParseInt(s: string, p: Platform): Option<int> {
    if SignedDigits(s) && InIntRange(SignedValue(s), p) then Some(SignedValue(s)) else None
  }

  /** `strconv.Atoi`: the fast path for short non-empty strings takes one
      optional sign and then digits only, with no range check; every other
      string goes to `ParseInt`. The kind of error is not modelled. */
  function Atoi(s: string, p: Platform): (r: Option<int>)
    ensures r.Some? ==> SignedDigits(s) && r.value == SignedValue(s)
  {
    if 0 < |s| < FastPathLimit(p) then
      if SignedDigits(s) then Some(SignedValue(s)) else None
    else
      ParseInt(s, p)
  }

  /** The fast path's missing range check is harmless: a string short
      enough to take it always denotes a value that fits. */
  lemma FastPathFits(s: string, p: Platform)
    requires SignedDigits(s) && |s| < FastPathLimit(p)
    ensures InIntRange(SignedValue(s), p)
  {
    var digits := if s[0] == '+' || s[0] == '-' then s[1..] else s;
    DigitsValueBound(digits);
    assert Pow10(18) == 1_000_000_000_000_000_000;
    assert Pow10(9) == 1_000_000_000;
    assert Pow10(|digits|) <= Pow10(FastPathLimit(p) - 1) by {
      Pow10Monotone(|digits|, FastPathLimit(p) - 1);
    }
  }

  lemma {:induction false} Pow10Monotone(a: nat, b: nat)
    requires a <= b
    ensures Pow10(a) <= Pow10(b)
    decreases b - a
  {
    if a < b {
      Pow10Monotone(a + 1, b);
    }
  }

  /** Atoi succeeds exactly on `[+-]?[0-9]+` strings whose value fits the
      platform's int, and then yields that value. */
  lemma AtoiAccepts(s: string, p: Platform)
    ensures Atoi(s, p).Some? <==> SignedDigits(s) && InIntRange(SignedValue(s), p)
    ensures Atoi(s, p).Some? ==> Atoi(s, p).value == SignedValue(s)
  {
    if 0 < |s| < FastPathLimit(p) && SignedDigits(s) {
      FastPathFits(s, p);
    }
  }

  /** The minimal decimal rendering of a natural number. */
  function Decimal(n: nat): (s: string)
    ensures |s| > 0 && AllDigits(s)
    decreases n
  {
    if n < 10 then [DigitChar(n)] else Decimal(n / 10) + [DigitChar(n % 10)]
  }

  function Zeros(k: nat): (s: string)
    ensures |s| == k && AllDigits(s)
  {
    if k == 0 then [] else Zeros(k - 1) + ['0']
  }

  /** The time package's `appendInt(nil, x, width)`: a minus sign for a
      negative value, then the magnitude in decimal, zero-padded on the left
      to `width` digits. The two- and four-digit cases are written digit by
      digit, as in Go; every other case pads the minimal rendering. */
  function AppendInt(x: int, width: nat): string {
    var u: nat := if x < 0 then -x else x;
    var sign := if x < 0 then "-" else "";
    if width == 2 && u < 100 then
      sign + [DigitChar(u / 10), DigitChar(u % 10)]
    else if width == 4 && u < 10000 then
      sign + [DigitChar(u / 1000), DigitChar(u / 100 % 10), DigitChar(u / 10 % 10), DigitChar(u % 10)]
    else
      var digits := Decimal(u);
      sign + (if |digits| < width then Zeros(width - |digits|) else []) + digits
  }

  /** Euclidean division is determined by its defining equation. */
  lemma DivModUnique(x: int, k: int, q: int, r: int)
    requires k > 0 && 0 <= r < k && x == k * q + r
    ensures x / k == q && x % k == r
  {
    var q', r' := x / k, x % k;
    assert k * (q' - q) == r - r' by {
      assert k * q' + r' == k * q + r;
      assert k * (q' - q) == k * q' - k * q;
    }
    MulSign(k, q' - q);
  }

  /** A positive multiple of k is at least k; a negative one at most -k. */
  lemma MulSign(k: int, n: int)
    requires k > 0
    ensures n >= 1 ==> k * n >= k
    ensures n <= -1 ==> k * n <= -k
  {
  }

  lemma DigitsValueOfTwo(s: string)
    requires |s| == 2 && AllDigits(s)
    ensures DigitsValue(s) == DigitValue(s[0]) * 10 + DigitValue(s[1])
  {
    assert DigitsValue(s[..1]) == DigitValue(s[0]) by {
      assert s[..1][..0] == [];
    }
  }

  lemma DigitsValueOfFour(s: string)
    requires |s| == 4 && AllDigits(s)
    ensures DigitsValue(s)
         == ((DigitValue(s[0]) * 10 + DigitValue(s[1])) * 10 + DigitValue(s[2])) * 10 + DigitValue(s[3])
  {
    assert DigitsValue(s[..2]) == DigitValue(s[0]) * 10 + DigitValue(s[1]) by {
      DigitsValueOfTwo(s[..2]);
    }
    assert s[..3][..2] == s[..2];
    assert DigitsValue(s[..3]) == DigitsValue(s[..2]) * 10 + DigitValue(s[2]);
  }

  /** The decimal digits of a number below 10000, most significant first,
      as `appendInt` extracts them. */
  lemma FourDigits(x: int)
    requires 0 <= x < 10000
    ensures x / 1000 < 10
    ensures x == ((x / 1000 * 10 + x / 100 % 10) * 10 + x / 10 % 10) * 10 + x % 10
  {
  }

  /** Writing a small non-negative number and reading it back gives it. */
  lemma AppendIntRoundTrip(x: int, width: nat)
    requires (width == 2 && 0 <= x < 100) || (width == 4 && 0 <= x < 10000)
    ensures AllDigits(AppendInt(x, width)) && |AppendInt(x, width)| == width
    ensures DigitsValue(AppendInt(x, width)) == x
  {
    var s := AppendInt(x, width);
    if width == 2 {
      DigitsValueOfTwo(s);
    } else {
      FourDigits(x);
      DigitsValueOfFour(s);
    }
  }

  /** Reading a fixed-width digit string and writing it back at that width
      gives the same string: leading zeros are restored. */
  lemma AppendIntCanonical(s: string)
    requires AllDigits(s) && (|s| == 2 || |s| == 4)
    ensures AppendInt(DigitsValue(s), |s|) == s
  {
    if |s| == 2 {
      CanonicalTwo(s);
    } else {
      CanonicalFour(s);
    }
  }

  lemma CanonicalTwo(s: string)
    requires AllDigits(s) && |s| == 2
    ensures AppendInt(DigitsValue(s), 2) == s
  {
    var v := DigitsValue(s);
    DigitsValueOfTwo(s);
    DivModUnique(v, 10, DigitValue(s[0]), DigitValue(s[1]));
    CharOfDigit(s[0]);
    CharOfDigit(s[1]);
  }

  lemma CanonicalFour(s: string)
    requires AllDigits(s) && |s| == 4
    ensures AppendInt(DigitsValue(s), 4) == s
  {
    var v := DigitsValue(s);
    DigitsOfFourChars(s);
    AppendIntFour(v);
    CharOfDigit(s[0]);
    CharOfDigit(s[1]);
    CharOfDigit(s[2]);
    CharOfDigit(s[3]);
    assert s == [s[0], s[1], s[2], s[3]];
  }

  /** The digits `appendInt` extracts from the value of a four-digit
      string are that string's digits. */
  lemma DigitsOfFourChars(s: string)
    requires AllDigits(s) && |s| == 4
    ensures var v := DigitsValue(s);
      && 0 <= v < 10000
      && v / 1000 == DigitValue(s[0]) && v / 100 % 10 == DigitValue(s[1])
      && v / 10 % 10 == DigitValue(s[2]) && v % 10 == DigitValue(s[3])
  {
    DigitsValueOfFour(s);
    DigitsOfFour(DigitValue(s[0]), DigitValue(s[1]), DigitValue(s[2]), DigitValue(s[3]));
  }

  /** The four digits of `((a*10 + b)*10 + c)*10 + d` are a, b, c and d. */
  lemma DigitsOfFour(a: nat, b: nat, c: nat, d: nat)
    requires a < 10 && b < 10 && c < 10 && d < 10
    ensures var v := ((a * 10 + b) * 10 + c) * 10 + d;
      v < 10000 && v / 1000 == a && v / 100 % 10 == b && v / 10 % 10 == c && v % 10 == d
  {
  }

  lemma AppendIntFour(x: int)
    requires 0 <= x < 10000
    ensures AppendInt(x, 4) == [DigitChar(x / 1000), DigitChar(x / 100 % 10), DigitChar(x / 10 % 10), DigitChar(x % 10)]
  {
  }

  lemma CharOfDigit(c: char)
    requires IsDigit(c)
    ensures DigitChar(DigitValue(c)) == c
  {
  }
}

=== FILE: options.dfy ===
/** The client options of options.go. Each option value is built by its
    constructor (`WithHTTPClient`, `WithEndpoint`), so, as in Go, an option
    exists for a nil client or an empty endpoint too. */
module Options {
  import opened Results
  import opened Config

  datatype ClientOption =
    | WithHTTPClient(client: HttpClient)
    | WithEndpoint(endpoint: string)

  /** `opt.Apply(cli)`: each option replaces exactly its own field. */
  function Apply(opt: ClientOption, cli: Client): (r: Client)
    ensures opt.WithHTTPClient? ==> r.httpClient == opt.client
    ensures opt.WithEndpoint? ==> r.endpoint == opt.endpoint
    ensures opt.WithHTTPClient? ==> r.endpoint == cli.endpoint
    ensures opt.WithEndpoint? ==> r.httpClient == cli.httpClient
    ensures r.token == cli.token
  {
    match opt
    case WithHTTPClient(c) => cli.(httpClient := c)
    case WithEndpoint(e) => cli.(endpoint := e)
  }

  /** `for _, opt := range opts { opt.Apply(cli) }`: options in order. */
  function ApplyAll(opts: seq<ClientOption>, cli: Client): (r: Client)
    ensures r.token == cli.token
    ensures (forall i :: 0 <= i < |opts| ==> !opts[i].WithEndpoint?) ==> r.endpoint == cli.endpoint
    ensures (forall i :: 0 <= i < |opts| ==> !opts[i].WithHTTPClient?) ==> r.httpClient == cli.httpClient
    ensures |opts| > 0 && opts[|opts| - 1].WithEndpoint? ==> r.endpoint == opts[|opts| - 1].endpoint
    ensures |opts| > 0 && opts[|opts| - 1].WithHTTPClient? ==> r.httpClient == opts[|opts| - 1].client
    decreases |opts|
  {
    if |opts| == 0 then cli else ApplyAll(opts[1..], Apply(opts[0], cli))
  }

  /** The endpoint named by the rightmost endpoint option, if any. */
  function LastEndpoint(opts: seq<ClientOption>): Option<string>
    decreases |opts|
  {
    if |opts| == 0 then None
    else if opts[|opts| - 1].WithEndpoint? then Some(opts[|opts| - 1].endpoint)
    else LastEndpoint(opts[..|opts| - 1])
  }

  /** The client named by the rightmost HTTP-client option, if any. */
  function LastHttpClient(opts: seq<ClientOption>): Option<HttpClient>
    decreases |opts|
  {
    if |opts| == 0 then None
    else if opts[|opts| - 1].WithHTTPClient? then Some(opts[|opts| - 1].client)
    else LastHttpClient(opts[..|opts| - 1])
  }

  /** Applying one more option after a run of them. */
  lemma {:induction false} ApplyAllSnoc(opts: seq<ClientOption>, opt: ClientOption, cli: Client)
    ensures ApplyAll(opts + [opt], cli) == Apply(opt, ApplyAll(opts, cli))
    decreases |opts|
  {
    if |opts| > 0 {
      assert (opts + [opt])[1..] == opts[1..] + [opt];
      ApplyAllSnoc(opts[1..], opt, Apply(opts[0], cli));
    }
  }

  /** Options applied left to right means the last option of each kind
      wins; a field no option names keeps its value, and the token is
      never touched. */
  lemma {:induction false} LastOptionWins(opts: seq<ClientOption>, cli: Client)
    ensures ApplyAll(opts, cli).endpoint == LastEndpoint(opts).GetOr(cli.endpoint)
    ensures ApplyAll(opts, cli).httpClient == LastHttpClient(opts).GetOr(cli.httpClient)
    ensures ApplyAll(opts, cli).token == cli.token
    decreases |opts|
  {
    if |opts| > 0 {
      var init, last := opts[..|opts| - 1], opts[|opts| - 1];
      assert opts == init + [last];
      ApplyAllSnoc(init, last, cli);
      LastOptionWins(init, cli);
    }
  }

  /** An option for a nil client or an empty endpoint is an option like
      any other: applying it stores exactly that value. */
  lemma NilAndEmptyOptions(cli: Client)
    ensures Apply(WithHTTPClient(NilClient), cli) == cli.(httpClient := NilClient)
    ensures Apply(WithEndpoint(""), cli) == cli.(endpoint := "")
  {
  }
}

=== FILE: results.dfy ===
/** Success-or-failure values shared by every module of the model. */
module Results {

  /** A value that may be absent, in place of a Go nil pointer or a `(v, ok)` pair. */
  datatype Option<+T> = None | Some(value: T) {

    /** The carried value, or `default` when there is none. */
    function GetOr(default: T): T {
      match this
      case Some(v) => v
      case None => default
    }
  }

  /** A Go `(value, error)` pair in which exactly one side is meaningful. */
  datatype Result<+T, +E> = Ok(value: T) | Err(error: E)
}

=== FILE: types.dfy ===
/** The value types of types.go whose JSON decoding is hand-written:
    Version, NullString, RemoteAddress and Holiday. Each `UnmarshalJSON`
    is a function from the receiver's current value and the input to the
    receiver's new value and the error returned, because in Go the method
    may change the receiver even when it fails. */
module Types {
  import opened Results
  import opened Numeric
  import opened Calendar
  import opened DateFormat
  import opened Json

  /** Why a decoder refused its input. Messages are not modelled. */
  datatype DecodeError =
    | BadDate(text: string)
    | TypeMismatch
    | UndefinedType(tag: string)
    | Unresolvable(family: Family, address: string)

  // ---------------------------------------------------------------- Version

  /** The date a response's data was published, at midnight UTC. */
  datatype Version = Version(date: Date)

  /** The zero `Version`, which `null` leaves in place. */
  const ZeroVersion := Version(ZeroDate)

  function Quote(s: string): string {
    "\"" + s + "\""
  }

  /** `Version.UnmarshalJSON`: the raw text `null` is accepted and changes
      nothing; otherwise the raw text must be a quoted "2006-01-02" date,
      which becomes the new value. A failure leaves the receiver alone. */
  function UnmarshalVersion(v: Version, data: string): (r: (Version, Option<DecodeError>))
    ensures r.1.None? && data != "null" ==>
      data == Quote(FormatDate(r.0.date)) && IsValid(r.0.date) && 0 <= r.0.date.year <= 9999
    ensures r.1.Some? ==> r.0 == v
  {
    if data == "null" then (v, None)
    else if |data| >= 2 && data[0] == '"' && data[|data| - 1] == '"' && ParseDate(data[1..|data| - 1]).Some? then
      var inner := data[1..|data| - 1];
      FormatParse(inner);
      assert data == Quote(inner);
      (Version(ParseDate(inner).value), None)
    else (v, Some(BadDate(data)))
  }

  /** `null` decodes without error and keeps whatever the receiver held. */
  lemma VersionNull(v: Version)
    ensures UnmarshalVersion(v, "null") == (v, None)
  {
  }

  /** A quoted full-date with a four-digit year decodes to that date,
      whatever the receiver held. */
  lemma VersionRoundTrip(v: Version, d: Date)
    requires IsValid(d) && 0 <= d.year <= 9999
    ensures UnmarshalVersion(v, Quote(FormatDate(d))) == (Version(d), None)
  {
    ParseFormat(d);
    var data := Quote(FormatDate(d));
    assert data[1..|data| - 1] == FormatDate(d);
  }

  /** The client's test inputs: "2020-11-30" in quotes decodes to that
      date; "20201130" in quotes is an error that leaves the zero value. */
  lemma VersionExamples()
    ensures UnmarshalVersion(ZeroVersion, "\"2020-11-30\"") == (Version(Date(2020, 11, 30)), None)
    ensures UnmarshalVersion(ZeroVersion, "\"20201130\"").1.Some?
    ensures UnmarshalVersion(ZeroVersion, "\"20201130\"").0 == ZeroVersion
  {
    ParseDateAccepted();
    var data := "\"2020-11-30\"";
    assert data[1..|data| - 1] == "2020-11-30";
    var bad := "\"20201130\"";
    assert !DateShaped(bad[1..|bad| - 1]);
  }

  // ------------------------------------------------------------- NullString

  /** A string that may be JSON null; `valid` tells the two apart. */
  datatype NullString = NullString(str: string, valid: bool)

  const NullStringZero := NullString("", false)

  /** `NullString.UnmarshalJSON`: null returns at once and touches
      nothing; a string, the empty one included, is stored and marks the
      value valid; anything else is an error that touches nothing. */
  function UnmarshalNullString(ns: NullString, data: Json): (r: (NullString, Option<DecodeError>))
    ensures r.1.None? <==> data.Null? || data.Str?
    ensures r.1.None? && !data.Null? ==> r.0.valid && NullStringJson(r.0) == data
    ensures r.1.Some? || data.Null? ==> r.0 == ns
  {
    match data
    case Null => (ns, None)
    case Str(s) => (NullString(s, true), None)
    case _ => (ns, Some(TypeMismatch))
  }

  /** The JSON a decoded NullString stands for. */
  function NullStringJson(ns: NullString): Json {
    if ns.valid then Str(ns.str) else Null
  }

  /** Decoding into a fresh NullString keeps null and strings apart, the
      empty string included: reading the result back gives the input, and
      exactly the non-string, non-null inputs are refused. */
  lemma NullStringRoundTrip(data: Json)
    ensures UnmarshalNullString(NullStringZero, data).1.None? <==> data.Null? || data.Str?
    ensures data.Null? || data.Str? ==> NullStringJson(UnmarshalNullString(NullStringZero, data).0) == data
  {
  }

  /** `Valid` only ever goes from false to true, and a refused value
      changes nothing. */
  lemma NullStringMonotone(ns: NullString, data: Json)
    ensures UnmarshalNullString(ns, data).0.valid == (ns.valid || data.Str?)
    ensures UnmarshalNullString(ns, data).1.Some? ==> UnmarshalNullString(ns, data).0 == ns
  {
  }

  /** Decoding the same input twice is the same as decoding it once. */
  lemma NullStringIdempotent(ns: NullString, data: Json)
    ensures var once := UnmarshalNullString(ns, data);
      UnmarshalNullString(once.0, data) == once
  {
  }

  // ---------------------------------------------------------- RemoteAddress

  /** The address family passed to `net.ResolveIPAddr` ("ip4" or "ip6"). */
  datatype Family = Ip4 | Ip6

  /** A `net.IPAddr`: the address bytes and an IPv6 zone. */
  datatype IPAddr = IPAddr(ip: seq<bv8>, zone: string)

  /** `net.ResolveIPAddr(network, address)`: it may consult DNS, so it is
      a parameter of the model. */
  type Resolver = (Family, string) -> Option<IPAddr>

  /** The `type`, `address` and resolved address of a RemoteAddress. */
  datatype RemoteAddress = RemoteAddress(tag: string, address: string, ipAddr: Option<IPAddr>)

  const RemoteAddressZero := RemoteAddress("", "", None)

  /** The family a `type` tag selects: "v4" and "v6", nothing else. */
  function FamilyOf(tag: string): Option<Family> {
    if tag == "v4" then Some(Ip4) else if tag == "v6" then Some(Ip6) else None
  }

  /** `RemoteAddress.UnmarshalJSON`. The `type` and `address` members are
      decoded into the receiver itself; then the tag picks the family to
      resolve the address in. A failed resolution stores nil. Decoding the
      JSON null makes the Go method dereference a nil pointer, so it is
      excluded. */
  function UnmarshalRemoteAddress(ra: RemoteAddress, data: Json, resolve: Resolver): (r: (RemoteAddress, Option<DecodeError>))
    requires !data.Null?
    ensures !data.Obj? ==> r == (ra, Some(TypeMismatch))
    ensures data.Obj? && !(FieldFits(data.members, "type", StringField) && FieldFits(data.members, "address", StringField))
      ==> r.1 == Some(TypeMismatch)
    ensures r.1.None? ==>
      && FamilyOf(r.0.tag).Some?
      && r.0.ipAddr.Some? && r.0.ipAddr == resolve(FamilyOf(r.0.tag).value, r.0.address)
    ensures r.1.Some? && r.1.value.UndefinedType? ==> r.1.value.tag == r.0.tag && FamilyOf(r.0.tag).None?
    ensures r.1.Some? && r.1.value.Unresolvable? ==>
      && r.0.ipAddr.None? && FamilyOf(r.0.tag) == Some(r.1.value.family) && r.1.value.address == r.0.address
  {
    match data
    case Obj(ms) =>
      var decoded := ra.(tag := DecodeString(ms, "type", ra.tag), address := DecodeString(ms, "address", ra.address));
      if !FieldFits(ms, "type", StringField) || !FieldFits(ms, "address", StringField) then
        (decoded, Some(TypeMismatch))
      else if FamilyOf(decoded.tag).None? then
        (decoded, Some(UndefinedType(decoded.tag)))
      else
        var family := FamilyOf(decoded.tag).value;
        (match resolve(family, decoded.address)
         case None => (decoded.(ipAddr := None), Some(Unresolvable(family, decoded.address)))
         case Some(a) => (decoded.(ipAddr := Some(a)), None))
    case _ => (ra, Some(TypeMismatch))
  }

  /** Tag dispatch: an object whose members are well typed decodes exactly
      when its tag is "v4" or "v6" and the address resolves in that tag's
      family; an unknown tag is an error naming the tag, and an unresolved
      address an error naming the family and address. */
  lemma RemoteAddressDispatch(ra: RemoteAddress, ms: seq<Member>, resolve: Resolver)
    requires FieldFits(ms, "type", StringField) && FieldFits(ms, "address", StringField)
    ensures var r := UnmarshalRemoteAddress(ra, Obj(ms), resolve);
      var tag, address := DecodeString(ms, "type", ra.tag), DecodeString(ms, "address", ra.address);
      && (r.1.None? <==> (tag == "v4" || tag == "v6") && resolve(if tag == "v4" then Ip4 else Ip6, address).Some?)
      && (r.1.None? ==> r.0 == RemoteAddress(tag, address, resolve(if tag == "v4" then Ip4 else Ip6, address)))
      && (tag != "v4" && tag != "v6" ==> r.1 == Some(UndefinedType(tag)))
      && ((tag == "v4" || tag == "v6") && r.1.Some? ==>
            r.1 == Some(Unresolvable(if tag == "v4" then Ip4 else Ip6, address)) && r.0.ipAddr.None?)
  {
  }

  /** A fresh receiver and an object with no `type` member: the tag is the
      empty string, which is refused and named in the error. */
  lemma RemoteAddressMissingTag(resolve: Resolver)
    ensures UnmarshalRemoteAddress(RemoteAddressZero, Obj([]), resolve).1 == Some(UndefinedType(""))
  {
  }

  /** The client's test inputs, for any resolver: tag "v8" is refused by
      name; with a resolver that finds no address, "v4" is refused too. */
  lemma RemoteAddressExamples(resolve: Resolver)
    ensures var v8 := Obj([Member("type", Str("v8")), Member("address", Str("::1"))]);
      UnmarshalRemoteAddress(RemoteAddressZero, v8, resolve).1 == Some(UndefinedType("v8"))
    ensures var v4 := Obj([Member("type", Str("v4")), Member("address", Str("wrong"))]);
      resolve(Ip4, "wrong").None? ==>
        UnmarshalRemoteAddress(RemoteAddressZero, v4, resolve).1 == Some(Unresolvable(Ip4, "wrong"))
  {
  }

  // ---------------------------------------------------------------- Holiday

  /** A holiday: its title and its date (in JST; only the calendar date
      is modelled). */
  datatype Holiday = Holiday(title: string, date: Date)

  const ZeroHoliday := Holiday("", ZeroDate)

  /** The wire record's members all fit their Go fields: `title`, `date`
      and `day_of_week_text` are strings, `day_of_week` an int. */
  predicate HolidayMembersFit(ms: seq<Member>) {
    && FieldFits(ms, "title", StringField)
    && FieldFits(ms, "date", StringField)
    && FieldFits(ms, "day_of_week", IntField)
    && FieldFits(ms, "day_of_week_text", StringField)
  }

  /** `Holiday.UnmarshalJSON`: decode the wire record (JSON null decodes
      to an empty one), then parse its `date` with layout "2006-01-02".
      The day-of-week members are type-checked but not used. A wire record
      that does not fit leaves the receiver alone; a date that does not
      parse overwrites the receiver's time with the zero time (Go assigns
      the parse result before testing the error) and keeps the old title. */
  function UnmarshalHoliday(h: Holiday, data: Json): (r: (Holiday, Option<DecodeError>))
    ensures r.1.None? <==>
      data.Obj? && HolidayMembersFit(data.members) && ParseDate(DecodeString(data.members, "date", "")).Some?
    ensures r.1.None? ==>
      r.0 == Holiday(DecodeString(data.members, "title", ""), ParseDate(DecodeString(data.members, "date", "")).value)
    ensures r.1 == Some(TypeMismatch) <==> !data.Null? && !(data.Obj? && HolidayMembersFit(data.members))
    ensures r.1 == Some(TypeMismatch) ==> r.0 == h
    ensures r.1.Some? && r.1 != Some(TypeMismatch) ==> r.1.value.BadDate? && r.0 == h.(date := ZeroDate)
    ensures r.1.Some? ==> r.0.title == h.title
  {
    var wire: Option<seq<Member>> :=
      match data
      case Null => Some([])
      case Obj(ms) => if HolidayMembersFit(ms) then Some(ms) else None
      case _ => None;
    if wire.None? then (h, Some(TypeMismatch))
    else
      var ms := wire.value;
      var date := DecodeString(ms, "date", "");
      match ParseDate(date)
      case None => (h.(date := ZeroDate), Some(BadDate(date)))
      case Some(d) => (Holiday(DecodeString(ms, "title", ""), d), None)
  }

  /** `strings.ToLower` on ASCII text. */
  function AsciiLower(s: string): (r: string)
    ensures |r| == |s|
    ensures forall i :: 0 <= i < |s| && 'A' <= s[i] <= 'Z' ==>
      'a' <= r[i] <= 'z' && r[i] as int - 'a' as int == s[i] as int - 'A' as int
    ensures forall i :: 0 <= i < |s| && !('A' <= s[i] <= 'Z') ==> r[i] == s[i]
  {
    seq(|s|, i requires 0 <= i < |s| => if 'A' <= s[i] <= 'Z' then (s[i] as int + 32) as char else s[i])
  }

  /** `Holiday.MarshalJSON`: the title, the date in "2006-01-02", and the
      weekday recomputed from the date, as a number (0 is Sunday) and as
      its lower-case English name. A Go time always holds a real date. */
  function MarshalHoliday(h: Holiday): (j: Json)
    requires IsValid(h.date)
    ensures j.Obj? && |j.members| == 4
    ensures j.members[0] == Member("title", Str(h.title))
    ensures j.members[1] == Member("date", Str(FormatDate(h.date)))
    ensures j.members[2] == Member("day_of_week", Num(Decimal(RfcDayOfWeek(h.date))))
    ensures j.members[3] == Member("day_of_week_text", Str(AsciiLower(WeekdayNames[RfcDayOfWeek(h.date)])))
  {
    var w := Weekday(h.date);
    WeekdayMatchesRfc(h.date);
    Obj([
      Member("title", Str(h.title)),
      Member("date", Str(FormatDate(h.date))),
      Member("day_of_week", Num(Decimal(w))),
      Member("day_of_week_text", Str(AsciiLower(WeekdayNames[w])))
    ])
  }

  /** A one-digit weekday number passes the int field's type check. */
  lemma SmallNumberFitsInt(w: nat)
    requires w < 10
    ensures Fits(Num(Decimal(w)), IntField)
  {
    assert Decimal(w) == [DigitChar(w)];
    FastPathFits(Decimal(w), Int64);
  }

  /** Encoding a holiday with a four-digit year and decoding the result
      gives the holiday back, whatever the receiver held. */
  lemma HolidayRoundTrip(h: Holiday, receiver: Holiday)
    requires IsValid(h.date) && 0 <= h.date.year <= 9999
    ensures UnmarshalHoliday(receiver, MarshalHoliday(h)) == (h, None)
  {
    var j := MarshalHoliday(h);
    var ms := j.members;
    SmallNumberFitsInt(Weekday(h.date));
    assert HolidayMembersFit(ms);
    DecodeStringAt(ms, "date", 1, "");
    DecodeStringAt(ms, "title", 0, "");
    ParseFormat(h.date);
  }

  /** The day-of-week members are type-checked and then ignored: two
      well-typed records with the same title and date text decode alike. */
  lemma HolidayIgnoresWeekdayMembers(h: Holiday, ms1: seq<Member>, ms2: seq<Member>)
    requires HolidayMembersFit(ms1) && HolidayMembersFit(ms2)
    requires DecodeString(ms1, "title", "") == DecodeString(ms2, "title", "")
    requires DecodeString(ms1, "date", "") == DecodeString(ms2, "date", "")
    ensures UnmarshalHoliday(h, Obj(ms1)) == UnmarshalHoliday(h, Obj(ms2))
  {
  }

  /** A record whose day-of-week members contradict its date decodes as
      if they were absent. */
  lemma HolidayWrongWeekdayIgnored()
    ensures var withDay := [Member("title", Str("t")), Member("date", Str("2022-01-01")),
                            Member("day_of_week", Num("3")), Member("day_of_week_text", Str("monday"))];
      UnmarshalHoliday(ZeroHoliday, Obj(withDay))
        == UnmarshalHoliday(ZeroHoliday, Obj([Member("title", Str("t")), Member("date", Str("2022-01-01"))]))
  {
    var withDay := [Member("title", Str("t")), Member("date", Str("2022-01-01")),
                    Member("day_of_week", Num("3")), Member("day_of_week_text", Str("monday"))];
    var bare := [Member("title", Str("t")), Member("date", Str("2022-01-01"))];
    assert Decimal(3) == "3";
    SmallNumberFitsInt(3);
    assert HolidayMembersFit(withDay);
    assert HolidayMembersFit(bare);
    DecodeStringAt(withDay, "title", 0, "");
    DecodeStringAt(bare, "title", 0, "");
    DecodeStringAt(withDay, "date", 1, "");
    DecodeStringAt(bare, "date", 1, "");
    HolidayIgnoresWeekdayMembers(ZeroHoliday, withDay, bare);
  }

  /** Decoding and then encoding keeps the wire record's title and its
      date text exactly; the day-of-week members are recomputed. */
  lemma HolidayReencode(receiver: Holiday, data: Json)
    requires UnmarshalHoliday(receiver, data).1.None?
    ensures data.Obj?
    ensures var out := MarshalHoliday(UnmarshalHoliday(receiver, data).0);
      && out.members[0] == Member("title", Str(DecodeString(data.members, "title", "")))
      && out.members[1] == Member("date", Str(DecodeString(data.members, "date", "")))
  {
    FormatParse(DecodeString(data.members, "date", ""));
  }

  /** The client's test input for decoding: the normal record gives its
      title and date. */
  lemma HolidayDecodeExample()
    ensures var ok := Obj([Member("title", Str("元日")), Member("date", Str("2022-01-01")),
                           Member("day_of_week", Num("6")), Member("day_of_week_text", Str("saturday"))]);
      UnmarshalHoliday(ZeroHoliday, ok) == (Holiday("元日", Date(2022, 1, 1)), None)
  {
    var ms := [Member("title", Str("元日")), Member("date", Str("2022-01-01")),
               Member("day_of_week", Num("6")), Member("day_of_week_text", Str("saturday"))];
    SmallNumberFitsInt(6);
    assert Decimal(6) == "6";
    assert HolidayMembersFit(ms);
    DecodeStringAt(ms, "date", 1, "");
    DecodeStringAt(ms, "title", 0, "");
    ParseDateAccepted();
  }

  /** A numeric title does not fit the string field: an error that keeps
      the receiver. */
  lemma HolidayBadTitleExample()
    ensures var bad := Obj([Member("title", Num("2")), Member("date", Str("2022-01-01"))]);
      UnmarshalHoliday(ZeroHoliday, bad) == (ZeroHoliday, Some(TypeMismatch))
  {
  }

  /** A slash-separated date is refused and named in the error; the
      receiver's time becomes the zero time. */
  lemma HolidayBadDateExample()
    ensures var bad := Obj([Member("title", Str("元日")), Member("date", Str("2022/01/01"))]);
      UnmarshalHoliday(ZeroHoliday, bad) == (ZeroHoliday, Some(BadDate("2022/01/01")))
  {
  }

  /** The client's test inputs for encoding: 2022-01-01 is day 6,
      "saturday"; the zero holiday is "0001-01-01", day 1, "monday". */
  lemma HolidayEncodeExamples()
    ensures MarshalHoliday(Holiday("元日", Date(2022, 1, 1)))
         == Obj([Member("title", Str("元日")), Member("date", Str("2022-01-01")),
                 Member("day_of_week", Num("6")), Member("day_of_week_text", Str("saturday"))])
    ensures MarshalHoliday(ZeroHoliday)
         == Obj([Member("title", Str("")), Member("date", Str("0001-01-01")),
                 Member("day_of_week", Num("1")), Member("day_of_week_text", Str("monday"))])
  {
    KnownWeekdays();
    assert FormatDate(Date(2022, 1, 1)) == "2022-01-01";
    assert FormatDate(ZeroDate) == "0001-01-01";
    assert Decimal(6) == "6" && Decimal(1) == "1";
    assert AsciiLower("Saturday") == "saturday";
    assert AsciiLower("Monday") == "monday";
  }
}
